=== FILE: README.md ===
# Puppy storefront: the request-handler rules

This project models the rules inside the request handlers of a small Flask
storefront that sells puppies (`app.py`). The web framework, the ORM and the
file system are replaced by pure functions over an immutable in-memory store:

- products and orders are maps from id to record;
- the site settings are the rows of their table, of which the pages read the
  first;
- the signed-in user is a `Caller` value;
- a request either answers with an `Error` or commits a new store.

An exception the handler does not catch (`float()` on text that does not
parse, a `None` where a column is NOT NULL, a duplicate order number) becomes
`InternalError`, and the store is left unchanged, as a failed commit leaves the
database.

Modules, in dependency order:

- `Wrappers`: `Option` and `Result`.
- `Text`: Python's `str.strip()`, `str.lower()` and `str.title()`. Letters
  are cased over ASCII only. `strip()` removes Python's full `isspace()` set.
- `Lists`: the position `list.remove` deletes (the first occurrence), `list.remove` itself, and the
  "append if not seen" de-duplication loop.
- `Uploads`: `allowed_file`, and the image paths an upload form records.
- `Breeds`: breed normalisation for storing and for filtering, and the
  cleaned breed list shown on the pages.
- `Details`: the additional-details map zipped from two form lists.
- `Storefront`: the records, the store, the admin gate, and the store
  invariant `Valid`.
- `Catalog`: the puppies listing, `add_product`, `edit_product` and
  `delete_product_image`.
- `Orders`: `checkout`, and the order status and payment-status updates.
- `Settings`: the admin site-settings upsert.

Each operation comes with a lemma about it:

- every store operation keeps `Valid`;
- parsing a status inverts naming it;
- normalising a breed twice is normalising it once;
- a filter finds a breed stored as `edit_product` stores it exactly when both
  normalise alike; a whitespace-only breed, which `add_product` stores as
  `""`, is found by a whitespace-only filter;
- the filter key of a non-blank argument is the breed `edit_product` would
  store for it;
- accepting two upload batches is accepting each in turn;
- the settings upsert is idempotent.

The unfiltered puppies listing shows only available products that have a
breed, as the handler's own comment says (`app.py:155`), not every available
product (`app.py:161-162`). The model's `add_product` stores the breed as the
code writes it, so a whitespace-only breed is stored as the empty string and
such a product is listed; see Findings. `edit_product` stores no breed for the
same input.

## Model

| member | source | states |
|---|---|---|
| Text.Strip | app.py:423 | The result has no whitespace at either end. It is empty exactly when the input is all whitespace. Text already trimmed is unchanged. Otherwise the result is a slice of the input with only whitespace cut off either side. |
| Text.StripSurrounded | app.py:159 | Stripping whitespace padding off a trimmed non-empty text gives back exactly that text. |
| Text.Lower | app.py:642 | Lower-casing keeps the length. Each result character is not upper-case and has the same upper-case form as the input character in its place, and a character that is not upper-case is kept. |
| Text.Title | app.py:425 | Title-casing keeps the length. A character is lower-cased when the original character before it is cased, and upper-cased otherwise. |
| Text.TitleOfWord | app.py:425 | A word made only of letters title-cases to its first letter upper-cased and the rest lower-cased. |
| Text.TitleIdempotent | app.py:480 | Title-casing an already title-cased text changes nothing. |
| Uploads.Extension | app.py:642 | The split after the last dot is absent exactly when the name has no dot. Otherwise it is the dot-free suffix that follows the last dot. |
| Uploads.ExtensionOfSplit | app.py:642 | A name `stem.ext` with a dot-free `ext` has extension `ext`, whatever dots the stem holds. |
| Uploads.AllowedFile | app.py:640-642 | An accepted upload name always contains a dot. |
| Uploads.AllowedFileOfSplit | app.py:640-642 | `stem.ext` with dot-free `ext` is accepted if and only if the lower-cased `ext` is png, jpg, jpeg, gif, webp or bmp. |
| Uploads.NoDotRejected | app.py:641 | A name without a dot is rejected. |
| Uploads.ExecutableRejected | app.py:640-642 | "malware.exe" is rejected. |
| Uploads.UpperCaseExtensionAccepted | app.py:642 | "puppy.JPG" is accepted: the extension is compared case-insensitively. |
| Uploads.AcceptedImagePaths | app.py:410-417 | At most one path per upload. No path if every name is refused, one per upload if every name is allowed. Every path is `uploads/` plus the sanitised name of an allowed upload. |
| Uploads.AcceptedImagePathsAppend | app.py:498-503 | The paths of two upload batches together are the first batch's paths followed by the second's, so upload order is kept. |
| Uploads.AcceptedSingle | app.py:412-417 | One upload adds its path exactly when its name is allowed. |
| Lists.FirstIndex | app.py:565 | The index returned is the first occurrence of the element, the position `list.remove` deletes. |
| Lists.RemoveFirst | app.py:565 | Removing an element drops the length by one and takes exactly one copy out of the multiset. The result is the list with the first occurrence cut out, the rest in order. |
| Lists.KeepFirstNonEmpty | app.py:103-108 | The kept list has no empty entries and no duplicates, and every entry comes from the input. Every non-empty input appears. Entries are ordered by first occurrence in the input. |
| Breeds.NormaliseBreed | app.py:477-482 | The result is "no breed" exactly for a missing or all-whitespace value. Otherwise it is the stripped, title-cased value, and that value is in normal form. |
| Breeds.NormaliseBreedIdempotent | app.py:477-482 | Normalising an already normalised breed returns it unchanged. |
| Breeds.NormaliseBreedOfWord | app.py:477-482 | A word of letters with whitespace padding becomes the capitalised word, so " LABRADOR " and "labrador" both become "Labrador". |
| Breeds.BreedOnAdd | app.py:420-425 | `add_product` differs from the corrected normalisation exactly on non-empty all-whitespace input. There it stores the empty string. |
| Breeds.BreedOnAddKeepsBlank | app.py:420-425 | `add_product` stores "" for the breed " ", where `edit_product` stores no breed. |
| Breeds.FilterKey | app.py:156-160 | The filter is off exactly for a missing or empty `breed` argument. Otherwise the key is "" for a whitespace-only argument, and for any other argument it is the breed that `edit_product` would store for that text. |
| Breeds.FilterFindsStoredBreed | app.py:156-160 | A normalised stored breed matches a non-empty filter argument if and only if the argument normalises to the same breed. |
| Breeds.CleanKey | app.py:104-106 | A row is skipped exactly when it has no breed or a whitespace-only one. Any other row contributes the breed `edit_product` would store for it. |
| Breeds.CleanKeyIsNormal | app.py:105-107 | Every non-blank cleaned breed is in normal form. |
| Breeds.CleanBreeds | app.py:165-172 | The cleaned breed list has no empty entries and no duplicates, and each entry is in normal form and comes from some row. Every non-blank row's breed appears. Entries are in order of first occurrence. |
| Details.DetailsUpTo | app.py:432-434 | After `n` iterations the map's keys are exactly those of the kept pairs, with no empty side. Each key holds the value of its last kept pair. |
| Details.PairCount | app.py:432 | `zip` stops at the shorter list. |
| Details.ZipDetails | app.py:428-434 | The details map has exactly the keys of the kept pairs among the zipped pairs, truncated to the shorter list. A repeated key holds the value of its later pair. |
| Details.ZipDetailsEntriesAreKeptPairs | app.py:432-434 | No key or value in the details map is empty. |
| Storefront.AdminGate | app.py:402-406 | Only a signed-in admin passes. An anonymous caller is sent to log in, and a signed-in non-admin is answered "Access denied". |
| Storefront.CurrentSettings | app.py:335 | The pages see no settings exactly when the table is empty, and otherwise a stored row; in a valid store that row is the only one. |
| Catalog.PuppyIds | app.py:156-162 | The puppies page lists only available products that have a breed. Without a `breed` argument it lists every one of them. With a whitespace-only argument it lists those whose breed is stored as "". With any other argument it lists exactly those whose stored breed is what `edit_product` would store for the argument. |
| Catalog.RatingOnAdd | app.py:442 | `add_product` fails on a rating that does not parse, stores 0.0 for a blank one, and stores the number otherwise. |
| Catalog.RatingOnEdit | app.py:486-490 | `edit_product` stores the same rating as `add_product` wherever `add_product` succeeds, and falls back to 0.0 where `add_product` would fail. |
| Catalog.AddedPuppyListedByBreed | app.py:156-162 | A newly added product is on the unfiltered listing exactly when a non-empty breed was submitted, whitespace-only included. Under a filter it is listed exactly when the argument normalises to the same breed as the submitted one, or when both the submitted breed and the argument are whitespace only. |
| Catalog.AddProduct | app.py:401-452 | Success exactly for an admin with a name, a numeric price and a rating that parses or is blank. Any failure leaves the store unchanged. The new product gets the next id and is available. Its breed is stripped and title-cased as `add_product` writes it, so a whitespace-only breed is stored as "". Its rating is the parsed rating or 0.0 when blank, its images are the accepted uploads and its details are the zipped pairs. Nothing else changes. |
| Catalog.AddProductKeepsValid | app.py:401-452 | Adding a product uses a fresh id and keeps the store invariant, whose breed clause admits the "" that `add_product` stores for a whitespace-only breed. |
| Catalog.EditProduct | app.py:465-519 | A missing product is NotFound. A missing name or a non-numeric price aborts with the store unchanged. A malformed rating falls back to 0.0. Accepted uploads go after the existing images. The details map is replaced whole. Availability and every other product are untouched. |
| Catalog.EditProductKeepsValid | app.py:465-519 | Editing a product keeps the store invariant. |
| Catalog.DeleteProductImage | app.py:544-569 | Success exactly for an admin, a stored product, a non-empty name and a name among its images. The errors come in order: NotFound, then NoFilename for a missing or empty name, then ImageNotOnProduct, each leaving the store unchanged. On success the first occurrence of the name is removed. The length drops by one and the other images keep their order. |
| Catalog.DeleteProductImageKeepsValid | app.py:544-569 | Removing an image keeps the store invariant. |
| Orders.ParseStatus | app.py:616 | A status is recognised exactly when it is one of pending, processing, completed or cancelled, and it names itself. |
| Orders.ParsePaymentStatus | app.py:633 | A payment status is recognised exactly when it is one of pending, paid or refunded, and it names itself. |
| Orders.ParseStatusName | app.py:616-617 | Every order status parses back from its stored name. |
| Orders.ParsePaymentStatusName | app.py:633-634 | Every payment status parses back from its stored name. |
| Orders.UpdateOrderStatus | app.py:607-621 | Success exactly for an admin, a stored order and a submitted value among pending, processing, completed and cancelled. A missing order is NotFound. An unlisted value is InvalidStatus with the order unchanged. On success only that order's status changes, to the submitted value. |
| Orders.UpdateOrderPaymentStatus | app.py:624-638 | Success exactly for an admin, a stored order and a submitted value among pending, paid and refunded. A missing order is NotFound. An unlisted value is InvalidPaymentStatus with the order unchanged. On success only that order's payment status changes, to the submitted value. |
| Orders.UpdateOrderStatusKeepsValid | app.py:607-621 | A status update keeps the store invariant. |
| Orders.UpdateOrderPaymentStatusKeepsValid | app.py:624-638 | A payment-status update keeps the store invariant. |
| Orders.Checkout | app.py:183-215 | An order is stored exactly when the total parses, any given product exists, the name and email are given and the order number is unused. The user is linked only for a signed-in caller. Statuses start as pending. With a product id there is exactly one item: that product, quantity 1, at its current price. |
| Orders.CheckoutKeepsValid | app.py:183-215 | Checkout uses a fresh order id and keeps the store invariant: order numbers stay unique and items name stored products. |
| Orders.ItemPriceSurvivesProductEdit | app.py:210-215 | An item's price is a snapshot: a later edit of the product leaves it at the checkout-time price. |
| Settings.SocialField | app.py:344-347 | A stored social link is trimmed, and empty exactly when the field is missing or blank. A present field is cut down to a slice of itself with only whitespace removed on either side, so trimmed text is stored unchanged. |
| Settings.SocialLinks | app.py:344-354 | The social-links map has exactly the keys facebook, twitter, instagram and youtube, each holding its stripped field. |
| Settings.UpsertSiteSettings | app.py:328-372 | For an admin, the first settings row afterwards holds the submitted fields. A row is created only when the table is empty. Other rows, products and orders are untouched. |
| Settings.UpsertIdempotent | app.py:356-372 | Saving the same settings twice gives the same store as saving them once. |
| Settings.UpsertKeepsValid | app.py:356-372 | The upsert keeps the store invariant, and after a save exactly one settings row exists. |

## Left out

- HTTP: routing, templates, flash messages, redirects and JSON bodies. A handler's answer is a `Reply` holding the new store and a result or `Error`.
- The ORM session: a commit is the new store value, and an uncaught exception leaves the store as it was. The explicit rollback path of `delete_product_image` (`app.py:571-575`) is therefore the same as the unchanged store.
- Password hashing, registration, login and logout (`app.py:36-40`, `app.py:233-286`) are library calls. The caller's identity is a parameter.
- Saving uploads and `secure_filename`: the sanitiser is an uninterpreted function parameter, and writing the file is I/O.
- Removing the image file from disk after `delete_product_image` (`app.py:578-583`) is I/O.
- `generate_order_number` reads the clock; the order number is a parameter of `Orders.Checkout`.
- Float parsing: a numeric form field is `Blank`, `Number` or `Malformed`, and amounts are copied, never computed with. `total_value` in `admin_products` (`app.py:392`) sums prices and is left out for the same reason.
- The order notification placeholders (`app.py:137-145`) do nothing.
- Startup in `__main__` (`app.py:644-668`) runs once, outside any request: it creates the tables, seeds an admin user when none exists (falling back to the email `<username>@gmail.com` and the password `change_me`), and starts the server. `config.py` only reads the environment.
- The comma-joined string form of a product's image list (`app.py:557-567`) is legacy data; only the list form is modelled.
- Orders.Checkout: the product id is a number or absent. A non-numeric id in the form is not modelled. On SQLite `Product.query.get` finds no product for it, and reading `product.price` (`app.py:213`) then raises, as for a missing product.
- `delete_product`, `index`, `product_detail`, `admin_orders`, `view_order`, and the static pages only read or delete whole rows.
- The counters on the admin pages are not modelled: the pending-order count in `admin_dashboard` (`app.py:318`) and the gender counts in `admin_products`, which match `Male`, `male`, `M`, `m` and the female forms (`app.py:390-391`). They only read the tables.
- Column lengths: the model's strings are unbounded, while the tables declare `String(n)` columns (`app.py:44-47`, `app.py:59-67`, `app.py:84-88`), such as 100 characters for a product's name and breed, 10 for its gender and 20 for an order number, phone or payment method. SQLite ignores these limits. The engine comes from the environment (`config.py:8`), and one that enforces them, such as PostgreSQL or MySQL in strict mode, rejects an over-long value at commit. The four handlers below then fail where their contracts say they succeed.
- Catalog.AddProduct: success is stated without column lengths; an over-long name, breed, gender or age fails at commit on an engine that enforces them.
- Catalog.EditProduct: success is stated without column lengths, as for `Catalog.AddProduct`.
- Orders.Checkout: success is stated without column lengths; an over-long name, email, phone, payment method or order number fails at commit on an engine that enforces them.
- Settings.UpsertSiteSettings: success is stated without column lengths; an over-long location, phone, WhatsApp number, email or business hours fails at commit on an engine that enforces them.
- Timestamps (`created_at`, `updated_at`) come from the clock.
- Text.Lower: letters are cased over ASCII only. Python's `lower()` also lower-cases non-ASCII letters, and maps a few, such as 'İ', to two characters, so its result can be longer than its input; the model keeps the length.
- Text.Title: letters are cased over ASCII only. Non-ASCII letters, which Python also title-cases, are treated as uncased.
- Catalog.EditProduct: the handler appends to the stored image list in place and then assigns the same list back (`app.py:497-504`). Whether the ORM notices that change is not modelled; the model takes the appended list as stored.

## Findings

| source | as written | input that shows it | evidently intended | confidence | as-written member | corrected member |
|---|---|---|---|---|---|---|
| app.py:420-425 | `add_product` strips the breed and title-cases it only when the stripped text is non-empty. It stores the stripped text either way, so a whitespace-only breed is stored as `""`. | breed field `" "` (`Breeds.BreedOnAddKeepsBlank`) | no breed (`None`), as `edit_product` does at `app.py:477-482`. The blank breed otherwise passes the unfiltered listing's `breed IS NOT NULL` test (`Catalog.AddedPuppyListedByBreed`). `Catalog.AddProduct` models the code as written; `Catalog.EditProduct` uses the corrected rule. | not executed | Breeds.BreedOnAdd | Breeds.NormaliseBreed |

=== FILE: breeds.dfy ===
/** Breed handling: normalisation before storing a product's breed or
    filtering by one, and the cleaned, de-duplicated breed list offered for
    navigation and autocompletion. */
module Breeds {
  import opened Wrappers
  import opened Text
  import opened Lists

  /** A stored breed in normal form: non-empty, and unchanged by
      stripping and title-casing. */
  predicate IsNormalBreed(b: string) {
    b != [] && Title(Strip(b)) == b
  }

  /** Breed normalisation as `edit_product` does it: a missing, empty or
      whitespace-only form value means "no breed", anything else is stripped
      and title-cased. */
  function NormaliseBreed(raw: Option<string>): (breed: Option<string>)
    ensures breed.None? <==> raw.None? || AllSpace(raw.value)
    ensures breed.Some? ==> breed.value == Title(Strip(raw.value)) && IsNormalBreed(breed.value)
  {
    if raw.None? || raw.value == "" then None
    else
      var b := Strip(raw.value);
      if b == "" then None
      else
        StripOfTitleOfTrimmed(b);
        TitleIdempotent(b);
        Some(Title(b))
  }

  /** Normalising an already normalised breed changes nothing. */
  lemma NormaliseBreedIdempotent(raw: Option<string>)
    ensures NormaliseBreed(NormaliseBreed(raw)) == NormaliseBreed(raw)
  {
    var breed := NormaliseBreed(raw);
    if breed.Some? {
      assert !AllSpace(breed.value) by {
        assert Trimmed(breed.value);
        assert !IsSpace(breed.value[0]);
      }
    }
  }

  /** A word of letters, with any whitespace around it, is stored as the
      word capitalised: " LABRADOR " and "labrador" both become "Labrador". */
  lemma NormaliseBreedOfWord(pre: string, word: string, post: string)
    requires AllSpace(pre) && AllSpace(post)
    requires word != [] && forall k :: 0 <= k < |word| ==> IsCased(word[k])
    ensures NormaliseBreed(Some(pre + word + post)) == Some([UpperChar(word[0])] + Lower(word[1..]))
  {
    assert !IsSpace(word[0]) && !IsSpace(word[|word| - 1]);
    StripSurrounded(pre, word, post);
    TitleOfWord(word);
  }

  /** Breed normalisation as `add_product` writes it: a whitespace-only value
      is stripped to the empty string and stored as such, not as "no breed". */
  function BreedOnAdd(raw: Option<string>): (breed: Option<string>)
    ensures raw.None? || raw.value == "" ==> breed.None?
    ensures breed != NormaliseBreed(raw) <==> raw.Some? && raw.value != "" && AllSpace(raw.value)
    ensures breed != NormaliseBreed(raw) ==> breed == Some("")
  {
    if raw.None? || raw.value == "" then None
    else
      var b := Strip(raw.value);
      if b != "" then Some(Title(b)) else Some(b)
  }

  /** The discrepancy between the two handlers, on a single blank. */
  lemma BreedOnAddKeepsBlank()
    ensures BreedOnAdd(Some(" ")) == Some("")
    ensures NormaliseBreed(Some(" ")) == None
  {
    assert AllSpace(" ");
  }

  /** The value compared against stored breeds on the puppies page: the
      filter applies whenever the query argument is non-empty, and its
      stripped, title-cased text must equal the stored breed exactly. */
  function FilterKey(arg: Option<string>): (key: Option<string>)
    ensures key.None? <==> arg.None? || arg.value == ""
    ensures key.Some? ==> if AllSpace(arg.value) then key.value == "" else Some(key.value) == NormaliseBreed(arg)
  {
    if arg.None? || arg.value == "" then None else Some(Title(Strip(arg.value)))
  }

  /** A breed stored through normalisation is found by a filter argument
      exactly when the argument normalises to that same breed. */
  lemma FilterFindsStoredBreed(stored: Option<string>, arg: string)
    requires arg != ""
    ensures (NormaliseBreed(stored).Some? && NormaliseBreed(stored) == FilterKey(Some(arg)))
            <==> (NormaliseBreed(stored).Some? && NormaliseBreed(stored) == NormaliseBreed(Some(arg)))
  {
    if AllSpace(arg) {
      assert Strip(arg) == "";
    }
  }

  /** The key a raw breed value contributes to the cleaned list; the empty
      string stands for "skip" (a `None` or empty row, or a blank breed). */
  function CleanKey(raw: Option<string>): (key: string)
    ensures key == "" <==> raw.None? || AllSpace(raw.value)
    ensures key != "" ==> Some(key) == NormaliseBreed(raw)
  {
    match raw
    case None => ""
    case Some(b) => Title(Strip(b))
  }

  lemma CleanKeyIsNormal(raw: Option<string>)
    requires CleanKey(raw) != ""
    ensures IsNormalBreed(CleanKey(raw))
  {
    assert NormaliseBreed(raw) == Some(CleanKey(raw));
  }

  /** The key of every row, in query order. */
  function BreedKeys(raws: seq<Option<string>>): (keys: seq<string>)
    ensures |keys| == |raws|
    ensures forall p :: 0 <= p < |raws| ==> keys[p] == CleanKey(raws[p])
  {
    seq(|raws|, p requires 0 <= p < |raws| => CleanKey(raws[p]))
  }

  /** The breed-cleaning loop shared by the catalog pages and the admin
      product forms, over the breed column in query order: each row's breed
      is stripped and title-cased, blanks are skipped, and a breed is kept
      only the first time it appears. The result lists every non-blank key
      once, each in normal form, in order of first occurrence. */
  method CleanBreeds(raws: seq<Option<string>>) returns (cleaned: seq<string>)
    ensures forall i :: 0 <= i < |cleaned| ==> IsNormalBreed(cleaned[i])
    ensures forall i, j :: 0 <= i < j < |cleaned| ==> cleaned[i] != cleaned[j]
    ensures forall i :: 0 <= i < |cleaned| ==> cleaned[i] in BreedKeys(raws)
    ensures forall p :: 0 <= p < |raws| && CleanKey(raws[p]) != "" ==> CleanKey(raws[p]) in cleaned
    ensures InFirstOccurrenceOrder(BreedKeys(raws), cleaned)
  {
    var keys := BreedKeys(raws);
    cleaned := KeepFirstNonEmpty(keys);
    KeptKeysAreNormal(raws, keys, cleaned);
  }

  lemma KeptKeysAreNormal(raws: seq<Option<string>>, keys: seq<string>, kept: seq<string>)
    requires keys == BreedKeys(raws)
    requires forall i :: 0 <= i < |kept| ==> kept[i] != "" && kept[i] in keys
    ensures forall i :: 0 <= i < |kept| ==> IsNormalBreed(kept[i])
  {
    forall i | 0 <= i < |kept|
      ensures IsNormalBreed(kept[i])
    {
      var p :| 0 <= p < |keys| && keys[p] == kept[i];
      CleanKeyIsNormal(raws[p]);
    }
  }
}

=== FILE: catalog.dfy ===
/** The product handlers: the puppies listing, adding and editing a product
    from the admin form, and removing one image from a product. */
module Catalog {
  import opened Wrappers
  import opened Lists
  import opened Uploads
  import opened Text
  import opened Breeds
  import opened Details
  import opened Storefront

  /** The fields of the admin product form. */
  datatype ProductForm = ProductForm(
    name: Option<string>,
    breed: Option<string>,
    gender: Option<string>,
    age: Option<string>,
    price: NumberField,
    rating: NumberField,
    description: Option<string>,
    detailKeys: seq<string>,
    detailValues: seq<string>)

  /** The product ids the puppies page lists: available products with a
      breed, and with a non-empty `breed` argument only those whose stored
      breed equals the argument stripped and title-cased. */
  function PuppyIds(s: Store, breedArg: Option<string>): (ids: set<nat>)
    ensures forall id :: id in ids ==> id in s.products && s.products[id].isAvailable && s.products[id].breed.Some?
    ensures forall id :: id in s.products && s.products[id].isAvailable ==>
              (id in ids <==>
                 if breedArg.None? || breedArg.value == "" then s.products[id].breed.Some?
                 else if AllSpace(breedArg.value) then s.products[id].breed == Some("")
                 else s.products[id].breed == NormaliseBreed(breedArg))
  {
    match FilterKey(breedArg)
    case None => set id | id in s.products && s.products[id].isAvailable && s.products[id].breed.Some?
    case Some(key) => set id | id in s.products && s.products[id].isAvailable && s.products[id].breed == Some(key)
  }

  /** The stored rating on add: `float(value or 0.0)`, which raises on text
      that does not parse. */
  function RatingOnAdd(field: NumberField): (rating: Option<real>)
    ensures rating.None? <==> field.Malformed?
    ensures field.Number? ==> rating == Some(field.value)
    ensures field.Blank? ==> rating == Some(0.0)
  {
    match field
    case Blank => Some(0.0)
    case Number(v) => Some(v)
    case Malformed => None
  }

  /** The stored rating on edit, where a parse failure is caught and the
      rating falls back to 0.0. */
  function RatingOnEdit(field: NumberField): (rating: real)
    ensures RatingOnAdd(field).Some? ==> rating == RatingOnAdd(field).value
    ensures field.Malformed? ==> rating == 0.0
  {
    if field.Number? then field.value else 0.0
  }

  /** Every part of the store except the product `id` is as before. */
  ghost predicate OnlyProductChanged(s: Store, s': Store, id: nat) {
    && s'.orders == s.orders
    && s'.settings == s.settings
    && id in s'.products
    && (forall other :: other != id ==> (other in s'.products <==> other in s.products))
    && (forall other :: other in s.products && other != id ==> s'.products[other] == s.products[other])
  }

  /** `add_product`: a new available product from the form; its images are
      the accepted uploads in submission order, its breed is stripped and
      title-cased as this handler writes it (a whitespace-only breed is
      stored as the empty string), its details are the zipped detail pairs.
      A missing name (a NOT NULL column) or a price or rating that `float()`
      rejects aborts the request. */
  function AddProduct(s: Store, caller: Caller, form: ProductForm, uploads: seq<string>,
                      sanitize: string -> string): (r: Reply<nat>)
    ensures AdminGate(caller).Some? ==> r == Reply(s, Err(AdminGate(caller).value))
    ensures r.result.Ok? <==>
              AdminGate(caller).None? && form.name.Some? && form.price.Number? && !form.rating.Malformed?
    ensures r.result.Err? ==> r.store == s
    ensures r.result.Ok? ==>
              var id := r.result.value;
              && id == s.nextProductId
              && r.store.nextProductId == id + 1
              && OnlyProductChanged(s, r.store, id)
              && var p := r.store.products[id];
                 && p.name == form.name.value
                 && p.breed == BreedOnAdd(form.breed)
                 && p.gender == form.gender && p.age == form.age
                 && p.price == form.price.value
                 && Some(p.rating) == RatingOnAdd(form.rating)
                 && p.description == form.description
                 && p.images == AcceptedImagePaths(uploads, sanitize)
                 && p.details == ZipDetails(form.detailKeys, form.detailValues)
                 && p.isAvailable
  {
    match AdminGate(caller)
    case Some(e) => Reply(s, Err(e))
    case None =>
      var images := AcceptedImagePaths(uploads, sanitize);
      var breed := BreedOnAdd(form.breed);
      var details := ZipDetails(form.detailKeys, form.detailValues);
      if !form.price.Number? then Reply(s, Err(InternalError))
      else match RatingOnAdd(form.rating)
      case None => Reply(s, Err(InternalError))
      case Some(rating) =>
        if form.name.None? then Reply(s, Err(InternalError))
        else
          var p := Product(form.name.value, breed, form.gender, form.age, form.price.value, rating,
                           form.description, images, details, true);
          var id := s.nextProductId;
          Reply(s.(products := s.products[id := p], nextProductId := id + 1), Ok(id))
  }

  /** `edit_product`: every form field replaces the stored one, accepted
      uploads are appended after the existing images, and the details bag is
      replaced as a whole. Availability is not part of the form. */
  function EditProduct(s: Store, caller: Caller, id: nat, form: ProductForm, uploads: seq<string>,
                       sanitize: string -> string): (r: Reply<()>)
    ensures AdminGate(caller).Some? ==> r == Reply(s, Err(AdminGate(caller).value))
    ensures AdminGate(caller).None? && id !in s.products ==> r == Reply(s, Err(NotFound))
    ensures r.result.Ok? <==>
              AdminGate(caller).None? && id in s.products && form.name.Some? && form.price.Number?
    ensures r.result.Err? ==> r.store == s
    ensures r.result.Ok? ==>
              && r.store.nextProductId == s.nextProductId
              && OnlyProductChanged(s, r.store, id)
              && var old_ := s.products[id];
                 var p := r.store.products[id];
                 && p.name == form.name.value
                 && p.breed == NormaliseBreed(form.breed)
                 && p.gender == form.gender && p.age == form.age
                 && p.price == form.price.value
                 && p.rating == RatingOnEdit(form.rating)
                 && p.description == form.description
                 && p.images == old_.images + AcceptedImagePaths(uploads, sanitize)
                 && p.details == ZipDetails(form.detailKeys, form.detailValues)
                 && p.isAvailable == old_.isAvailable
  {
    match AdminGate(caller)
    case Some(e) => Reply(s, Err(e))
    case None =>
      if id !in s.products then Reply(s, Err(NotFound))
      else if form.name.None? || !form.price.Number? then Reply(s, Err(InternalError))
      else
        var old_ := s.products[id];
        var p := old_.(
          name := form.name.value,
          breed := NormaliseBreed(form.breed),
          gender := form.gender,
          age := form.age,
          price := form.price.value,
          rating := RatingOnEdit(form.rating),
          description := form.description,
          images := old_.images + AcceptedImagePaths(uploads, sanitize),
          details := ZipDetails(form.detailKeys, form.detailValues));
        Reply(s.(products := s.products[id := p]), Ok(()))
  }

  /** `delete_product_image`: the filename must be given and be on the
      product; its first occurrence is then removed from the image list. */
  function DeleteProductImage(s: Store, caller: Caller, id: nat, filename: Option<string>): (r: Reply<()>)
    ensures AdminGate(caller).Some? ==> r == Reply(s, Err(AdminGate(caller).value))
    ensures AdminGate(caller).None? && id !in s.products ==> r == Reply(s, Err(NotFound))
    ensures AdminGate(caller).None? && id in s.products && (filename.None? || filename.value == "") ==>
              r == Reply(s, Err(NoFilename))
    ensures (&& AdminGate(caller).None? && id in s.products && filename.Some? && filename.value != ""
             && filename.value !in s.products[id].images) ==> r == Reply(s, Err(ImageNotOnProduct))
    ensures r.result.Ok? <==>
              (&& AdminGate(caller).None? && id in s.products && filename.Some? && filename.value != ""
               && filename.value in s.products[id].images)
    ensures r.result.Ok? ==>
              && id in s.products && filename.Some? && filename.value in s.products[id].images
              && r.store.nextProductId == s.nextProductId
              && OnlyProductChanged(s, r.store, id)
              && var before := s.products[id].images;
                 var after := r.store.products[id].images;
                 && r.store.products[id] == s.products[id].(images := after)
                 && |after| == |before| - 1
                 && multiset(after) == multiset(before) - multiset{filename.value}
                 && exists i :: FirstOccurrence(before, filename.value, i) && after == before[..i] + before[i + 1..]
  {
    match AdminGate(caller)
    case Some(e) => Reply(s, Err(e))
    case None =>
      if id !in s.products then Reply(s, Err(NotFound))
      else if filename.None? || filename.value == "" then Reply(s, Err(NoFilename))
      else
        var images := s.products[id].images;
        if filename.value !in images then Reply(s, Err(ImageNotOnProduct))
        else
          var p := s.products[id].(images := RemoveFirst(images, filename.value));
          Reply(s.(products := s.products[id := p]), Ok(()))
  }

  /** Adding a product assigns a fresh id and keeps the store's invariant. */
  lemma AddProductKeepsValid(s: Store, caller: Caller, form: ProductForm, uploads: seq<string>,
                             sanitize: string -> string)
    requires Valid(s)
    ensures var r := AddProduct(s, caller, form, uploads, sanitize);
            && (r.result.Ok? ==> r.result.value !in s.products)
            && Valid(r.store)
  {
    var r := AddProduct(s, caller, form, uploads, sanitize);
    if r.result.Ok? {
      var id := r.result.value;
      var p := r.store.products[id];
      assert r.store == s.(products := s.products[id := p], nextProductId := id + 1);
    }
  }

  /** Editing a product keeps the store's invariant. */
  lemma EditProductKeepsValid(s: Store, caller: Caller, id: nat, form: ProductForm, uploads: seq<string>,
                              sanitize: string -> string)
    requires Valid(s)
    ensures Valid(EditProduct(s, caller, id, form, uploads, sanitize).store)
  {
    var r := EditProduct(s, caller, id, form, uploads, sanitize);
    if r.result.Ok? {
      assert r.store == s.(products := s.products[id := r.store.products[id]]);
    }
  }

  /** Removing an image keeps the store's invariant. */
  lemma DeleteProductImageKeepsValid(s: Store, caller: Caller, id: nat, filename: Option<string>)
    requires Valid(s)
    ensures Valid(DeleteProductImage(s, caller, id, filename).store)
  {
    var r := DeleteProductImage(s, caller, id, filename);
    if r.result.Ok? {
      assert r.store == s.(products := s.products[id := r.store.products[id]]);
    }
  }

  /** Where a newly added product shows on the puppies page. Unfiltered, it
      is listed whenever a non-empty breed was submitted, a whitespace-only
      one included. Under a breed filter it is listed when the argument
      normalises to the same breed as the submitted one, and also, for a
      whitespace-only breed stored as the empty string, when the argument is
      whitespace only. */
  lemma AddedPuppyListedByBreed(s: Store, caller: Caller, form: ProductForm, uploads: seq<string>,
                                sanitize: string -> string, arg: string)
    requires arg != ""
    requires caller.SignedIn? && caller.isAdmin
    requires form.name.Some? && form.price.Number? && !form.rating.Malformed?
    ensures AddProduct(s, caller, form, uploads, sanitize).result.Ok?
    ensures var r := AddProduct(s, caller, form, uploads, sanitize);
            (r.result.value in PuppyIds(r.store, None) <==> form.breed.Some? && form.breed.value != "")
    ensures var r := AddProduct(s, caller, form, uploads, sanitize);
            (r.result.value in PuppyIds(r.store, Some(arg)) <==>
               || (NormaliseBreed(form.breed).Some? && NormaliseBreed(form.breed) == NormaliseBreed(Some(arg)))
               || (form.breed.Some? && form.breed.value != "" && AllSpace(form.breed.value) && AllSpace(arg)))
  {
    var r := AddProduct(s, caller, form, uploads, sanitize);
    var id := r.result.value;
    FilterFindsStoredBreed(form.breed, arg);
    BlankFilterKey(arg);
    if form.breed.Some? && form.breed.value != "" && AllSpace(form.breed.value) {
      assert r.store.products[id].breed == Some("");
    }
  }

  /** A filter argument keys on the empty string exactly when it is
      whitespace only. */
  lemma BlankFilterKey(arg: string)
    requires arg != ""
    ensures FilterKey(Some(arg)) == Some("") <==> AllSpace(arg)
  {
  }
}

=== FILE: details.dfy ===
/** The product "additional details" bag: two parallel form lists, detail
    keys and detail values, zipped into a string-to-string map. */
module Details {

  /** Python truthiness of both strings: pairs with an empty side are dropped. */
  predicate KeptPair(key: string, value: string) {
    key != "" && value != ""
  }

  /** The keys of the kept pairs among the first `n` positions. */
  function KeptKeys(keys: seq<string>, values: seq<string>, n: nat): set<string>
    requires n <= |keys| && n <= |values|
  {
    set i | 0 <= i < n && KeptPair(keys[i], values[i]) :: keys[i]
  }

  /** Position `i` holds the last kept pair for its key among the first `n`. */
  predicate LastKeptAt(keys: seq<string>, values: seq<string>, n: nat, i: int)
    requires n <= |keys| && n <= |values|
  {
    && 0 <= i < n
    && KeptPair(keys[i], values[i])
    && forall j :: i < j < n && keys[j] == keys[i] ==> !KeptPair(keys[j], values[j])
  }

  /** The map built by the loop `for key, value in zip(keys, values)` after
      its first `n` iterations: exactly the kept keys, each bound to the
      value of its last kept pair. */
  function DetailsUpTo(keys: seq<string>, values: seq<string>, n: nat): (details: map<string, string>)
    requires n <= |keys| && n <= |values|
    ensures details.Keys == KeptKeys(keys, values, n)
    ensures forall i :: LastKeptAt(keys, values, n, i) ==> keys[i] in details && details[keys[i]] == values[i]
  {
    if n == 0 then map[]
    else
      var d := DetailsUpTo(keys, values, n - 1);
      if KeptPair(keys[n - 1], values[n - 1]) then
        KeptKeysStep(keys, values, n);
        KeptStep(keys, values, n, d);
        d[keys[n - 1] := values[n - 1]]
      else
        DroppedStep(keys, values, n, d);
        d
  }

  /** An iteration whose pair is kept binds its key to its value, and
      leaves every key whose last kept pair came earlier as it was. */
  lemma KeptStep(keys: seq<string>, values: seq<string>, n: nat, d: map<string, string>)
    requires 0 < n <= |keys| && n <= |values| && KeptPair(keys[n - 1], values[n - 1])
    requires forall i :: LastKeptAt(keys, values, n - 1, i) ==> keys[i] in d && d[keys[i]] == values[i]
    ensures var d' := d[keys[n - 1] := values[n - 1]];
            forall i :: LastKeptAt(keys, values, n, i) ==> keys[i] in d' && d'[keys[i]] == values[i]
  {
    forall i | LastKeptAt(keys, values, n, i)
      ensures i < n - 1 ==> LastKeptAt(keys, values, n - 1, i)
      ensures i < n - 1 ==> keys[i] != keys[n - 1]
    {
    }
  }

  /** An iteration whose pair is dropped keeps both facts of `DetailsUpTo`. */
  lemma DroppedStep(keys: seq<string>, values: seq<string>, n: nat, d: map<string, string>)
    requires 0 < n <= |keys| && n <= |values| && !KeptPair(keys[n - 1], values[n - 1])
    requires d.Keys == KeptKeys(keys, values, n - 1)
    requires forall i :: LastKeptAt(keys, values, n - 1, i) ==> keys[i] in d && d[keys[i]] == values[i]
    ensures d.Keys == KeptKeys(keys, values, n)
    ensures forall i :: LastKeptAt(keys, values, n, i) ==> keys[i] in d && d[keys[i]] == values[i]
  {
    KeptKeysStep(keys, values, n);
    forall i | LastKeptAt(keys, values, n, i)
      ensures LastKeptAt(keys, values, n - 1, i)
    {
    }
  }

  lemma KeptKeysStep(keys: seq<string>, values: seq<string>, n: nat)
    requires 0 < n <= |keys| && n <= |values|
    ensures KeptKeys(keys, values, n) ==
            KeptKeys(keys, values, n - 1) + if KeptPair(keys[n - 1], values[n - 1]) then {keys[n - 1]} else {}
  {
  }

  /** How many pairs `zip` produces: the length of the shorter list. */
  function PairCount(keys: seq<string>, values: seq<string>): (n: nat)
    ensures n <= |keys| && n <= |values| && (n == |keys| || n == |values|)
  {
    if |keys| <= |values| then |keys| else |values|
  }

  /** The additional-details map of a product form: zipped pairs, truncated
      to the shorter list, without pairs that have an empty side; when a key
      repeats, the later pair wins. */
  function ZipDetails(keys: seq<string>, values: seq<string>): (details: map<string, string>)
    ensures details.Keys == KeptKeys(keys, values, PairCount(keys, values))
    ensures forall i :: LastKeptAt(keys, values, PairCount(keys, values), i) ==>
              keys[i] in details && details[keys[i]] == values[i]
  {
    DetailsUpTo(keys, values, PairCount(keys, values))
  }

  /** Every entry of the map is one of the kept pairs, so no key or value in
      it is empty. */
  lemma ZipDetailsEntriesAreKeptPairs(keys: seq<string>, values: seq<string>)
    ensures var details := ZipDetails(keys, values);
            forall key :: key in details ==> key != "" && details[key] != ""
  {
    var details := ZipDetails(keys, values);
    var n := PairCount(keys, values);
    forall key | key in details
      ensures key != "" && details[key] != ""
    {
      var i :| 0 <= i < n && KeptPair(keys[i], values[i]) && keys[i] == key;
      var last := LastKeptFrom(keys, values, n, i);
    }
  }

  /** The last kept pair for the key at kept position `i`. */
  ghost function LastKeptFrom(keys: seq<string>, values: seq<string>, n: nat, i: nat): (last: nat)
    requires n <= |keys| && n <= |values|
    requires i < n && KeptPair(keys[i], values[i])
    ensures i <= last < n && keys[last] == keys[i] && LastKeptAt(keys, values, n, last)
    decreases n - i
  {
    if exists j :: i < j < n && keys[j] == keys[i] && KeptPair(keys[j], values[j]) then
      var j :| i < j < n && keys[j] == keys[i] && KeptPair(keys[j], values[j]);
      LastKeptFrom(keys, values, n, j)
    else i
  }
}

=== FILE: lists.dfy ===
/** Python list operations on ordered sequences. */
module Lists {

  /** `i` is the position of the first `x` in `xs`. */
  predicate FirstOccurrence<T(==)>(xs: seq<T>, x: T, i: int) {
    0 <= i < |xs| && xs[i] == x && x !in xs[..i]
  }

  /** An element has at most one first occurrence. */
  lemma FirstOccurrenceUnique<T>(xs: seq<T>, x: T, i: int, j: int)
    requires FirstOccurrence(xs, x, i) && FirstOccurrence(xs, x, j)
    ensures i == j
  {
  }

  /** The position of the first `x`: the element `xs.remove(x)` deletes. */
  function FirstIndex<T(==)>(xs: seq<T>, x: T): (i: nat)
    requires x in xs
    ensures FirstOccurrence(xs, x, i)
  {
    if xs[0] == x then 0
    else
      var j := FirstIndex(xs[1..], x);
      assert xs[..j + 1] == [xs[0]] + xs[1..][..j];
      j + 1
  }

  /** Python's `xs.remove(x)`: delete the first occurrence of `x`, keeping
      the other entries in their order. */
  function RemoveFirst<T(==)>(xs: seq<T>, x: T): (r: seq<T>)
    requires x in xs
    ensures |r| == |xs| - 1
    ensures multiset(r) == multiset(xs) - multiset{x}
    ensures exists i :: FirstOccurrence(xs, x, i) && r == xs[..i] + xs[i + 1..]
  {
    var i := FirstIndex(xs, x);
    assert xs == xs[..i] + [x] + xs[i + 1..];
    xs[..i] + xs[i + 1..]
  }

  /** The entries of `kept` first occur in `keys` in the order they are
      listed. */
  ghost predicate InFirstOccurrenceOrder<T>(keys: seq<T>, kept: seq<T>) {
    forall i, j, p, q :: 0 <= i < j < |kept| && FirstOccurrence(keys, kept[i], p) && FirstOccurrence(keys, kept[j], q) ==> p < q
  }

  /** The de-duplication loop `if c and c not in kept: kept.append(c)`:
      every non-empty key once, in order of first occurrence. */
  method KeepFirstNonEmpty(keys: seq<string>) returns (kept: seq<string>)
    ensures forall i :: 0 <= i < |kept| ==> kept[i] != ""
    ensures forall i, j :: 0 <= i < j < |kept| ==> kept[i] != kept[j]
    ensures forall i :: 0 <= i < |kept| ==> kept[i] in keys
    ensures forall p :: 0 <= p < |keys| && keys[p] != "" ==> keys[p] in kept
    ensures InFirstOccurrenceOrder(keys, kept)
  {
    kept := [];
    var k := 0;
    while k < |keys|
      invariant k <= |keys| && KeptSoFar(keys, kept, k)
    {
      var c := keys[k];
      if c != "" && c !in kept {
        KeepNew(keys, kept, k);
        kept := kept + [c];
      } else {
        SkipSeen(keys, kept, k);
      }
      k := k + 1;
    }
    assert keys[..k] == keys;
  }

  /** The loop's invariant after the first `k` keys: `kept` holds each
      non-empty key among them once, in order of first occurrence. */
  ghost predicate KeptSoFar(keys: seq<string>, kept: seq<string>, k: nat)
    requires k <= |keys|
  {
    && (forall i :: 0 <= i < |kept| ==> kept[i] != "")
    && (forall i, j :: 0 <= i < j < |kept| ==> kept[i] != kept[j])
    && (forall i :: 0 <= i < |kept| ==> kept[i] in keys[..k])
    && InFirstOccurrenceOrder(keys, kept)
    && (forall p :: 0 <= p < k && keys[p] != "" ==> keys[p] in kept)
  }

  /** A key already kept, or an empty one, leaves `kept` as it is. */
  lemma SkipSeen(keys: seq<string>, kept: seq<string>, k: nat)
    requires k < |keys| && KeptSoFar(keys, kept, k)
    requires keys[k] == "" || keys[k] in kept
    ensures KeptSoFar(keys, kept, k + 1)
  {
    assert keys[..k + 1] == keys[..k] + [keys[k]];
  }

  /** A non-empty key met for the first time is appended. */
  lemma KeepNew(keys: seq<string>, kept: seq<string>, k: nat)
    requires k < |keys| && KeptSoFar(keys, kept, k)
    requires keys[k] != "" && keys[k] !in kept
    ensures KeptSoFar(keys, kept + [keys[k]], k + 1)
  {
    var next := kept + [keys[k]];
    assert keys[..k + 1] == keys[..k] + [keys[k]];
    FirstOccurrenceOfNew(keys, kept, k);
    assert forall i :: 0 <= i < |kept| ==> next[i] == kept[i];
  }

  /** A non-empty key met for the first time at position `k` first occurs
      there, after the first occurrence of every key already kept. */
  lemma FirstOccurrenceOfNew(keys: seq<string>, kept: seq<string>, k: int)
    requires 0 <= k < |keys| && keys[k] != "" && keys[k] !in kept
    requires forall i :: 0 <= i < |kept| ==> kept[i] in keys[..k]
    requires forall p :: 0 <= p < k && keys[p] != "" ==> keys[p] in kept
    ensures forall q :: FirstOccurrence(keys, keys[k], q) <==> q == k
    ensures forall i, p :: 0 <= i < |kept| && FirstOccurrence(keys, kept[i], p) ==> p < k
  {
    assert FirstOccurrence(keys, keys[k], k);
    forall q | FirstOccurrence(keys, keys[k], q)
      ensures q == k
    {
      FirstOccurrenceUnique(keys, keys[k], k, q);
    }
  }
}

=== FILE: orders.dfy ===
/** The order handlers: checkout, and the two admin transitions of an
    order's fulfilment status and payment status. */
module Orders {
  import opened Wrappers
  import opened Storefront
  import Catalog

  /** The values `update_order_status` accepts. */
  const StatusNames: set<string> := {"pending", "processing", "completed", "cancelled"}

  /** The values `update_order_payment_status` accepts. */
  const PaymentStatusNames: set<string> := {"pending", "paid", "refunded"}

  /** The stored text of a fulfilment status. */
  function StatusName(status: OrderStatus): string {
    match status
    case Pending => "pending"
    case Processing => "processing"
    case Completed => "completed"
    case Cancelled => "cancelled"
  }

  /** The stored text of a payment status. */
  function PaymentStatusName(status: PaymentStatus): string {
    match status
    case PaymentPending => "pending"
    case Paid => "paid"
    case Refunded => "refunded"
  }

  /** Reads a submitted fulfilment status; only the four stored names are
      recognised, compared exactly. */
  function ParseStatus(text: string): (status: Option<OrderStatus>)
    ensures status.Some? <==> text in StatusNames
    ensures status.Some? ==> StatusName(status.value) == text
  {
    if text == "pending" then Some(Pending)
    else if text == "processing" then Some(Processing)
    else if text == "completed" then Some(Completed)
    else if text == "cancelled" then Some(Cancelled)
    else None
  }

  /** Reads a submitted payment status; only the three stored names are
      recognised, compared exactly. */
  function ParsePaymentStatus(text: string): (status: Option<PaymentStatus>)
    ensures status.Some? <==> text in PaymentStatusNames
    ensures status.Some? ==> PaymentStatusName(status.value) == text
  {
    if text == "pending" then Some(PaymentPending)
    else if text == "paid" then Some(Paid)
    else if text == "refunded" then Some(Refunded)
    else None
  }

  /** Every status is read back from its own name. */
  lemma ParseStatusName(status: OrderStatus)
    ensures ParseStatus(StatusName(status)) == Some(status)
  {
  }

  lemma ParsePaymentStatusName(status: PaymentStatus)
    ensures ParsePaymentStatus(PaymentStatusName(status)) == Some(status)
  {
  }

  /** `update_order_status`: the order must exist and the new value must be
      one of the four statuses; then that order's status, and nothing else,
      changes. A missing or non-string value is `None`. */
  function UpdateOrderStatus(s: Store, caller: Caller, id: nat, newStatus: Option<string>): (r: Reply<()>)
    ensures AdminGate(caller).Some? ==> r == Reply(s, Err(AdminGate(caller).value))
    ensures AdminGate(caller).None? && id !in s.orders ==> r == Reply(s, Err(NotFound))
    ensures (&& AdminGate(caller).None? && id in s.orders
             && (newStatus.None? || newStatus.value !in StatusNames)) ==> r == Reply(s, Err(InvalidStatus))
    ensures r.result.Ok? <==>
              AdminGate(caller).None? && id in s.orders && newStatus.Some? && newStatus.value in StatusNames
    ensures r.result.Ok? ==>
              && id in s.orders && newStatus.Some?
              && id in r.store.orders
              && StatusName(r.store.orders[id].status) == newStatus.value
              && r.store == s.(orders := s.orders[id := s.orders[id].(status := r.store.orders[id].status)])
  {
    match AdminGate(caller)
    case Some(e) => Reply(s, Err(e))
    case None =>
      if id !in s.orders then Reply(s, Err(NotFound))
      else match if newStatus.Some? then ParseStatus(newStatus.value) else None
      case None => Reply(s, Err(InvalidStatus))
      case Some(status) => Reply(s.(orders := s.orders[id := s.orders[id].(status := status)]), Ok(()))
  }

  /** `update_order_payment_status`: as `UpdateOrderStatus`, for the payment
      status and its three values. */
  function UpdateOrderPaymentStatus(s: Store, caller: Caller, id: nat, newStatus: Option<string>): (r: Reply<()>)
    ensures AdminGate(caller).Some? ==> r == Reply(s, Err(AdminGate(caller).value))
    ensures AdminGate(caller).None? && id !in s.orders ==> r == Reply(s, Err(NotFound))
    ensures (&& AdminGate(caller).None? && id in s.orders
             && (newStatus.None? || newStatus.value !in PaymentStatusNames)) ==> r == Reply(s, Err(InvalidPaymentStatus))
    ensures r.result.Ok? <==>
              AdminGate(caller).None? && id in s.orders && newStatus.Some? && newStatus.value in PaymentStatusNames
    ensures r.result.Ok? ==>
              && id in s.orders && newStatus.Some?
              && id in r.store.orders
              && PaymentStatusName(r.store.orders[id].paymentStatus) == newStatus.value
              && r.store == s.(orders := s.orders[id := s.orders[id].(paymentStatus := r.store.orders[id].paymentStatus)])
  {
    match AdminGate(caller)
    case Some(e) => Reply(s, Err(e))
    case None =>
      if id !in s.orders then Reply(s, Err(NotFound))
      else match if newStatus.Some? then ParsePaymentStatus(newStatus.value) else None
      case None => Reply(s, Err(InvalidPaymentStatus))
      case Some(status) => Reply(s.(orders := s.orders[id := s.orders[id].(paymentStatus := status)]), Ok(()))
  }

  /** The checkout form. `productId` is `None` when no product id is sent. */
  datatype CheckoutForm = CheckoutForm(
    name: Option<string>,
    email: Option<string>,
    phone: Option<string>,
    address: Option<string>,
    paymentMethod: Option<string>,
    notes: Option<string>,
    totalAmount: NumberField,
    productId: Option<nat>)

  /** The order numbers already in use. */
  function OrderNumbers(s: Store): set<string> {
    set id | id in s.orders :: s.orders[id].orderNumber
  }

  /** `checkout` on POST, with the order number the clock would produce
      passed in. The order links the caller's user id only when someone is
      signed in. With a product id it gets exactly one item, of quantity 1,
      priced at the product's price at that moment. A total that `float()`
      rejects, an unknown product, a missing name or email (NOT NULL
      columns) or an order number already taken (a UNIQUE column) aborts
      the request with nothing stored. */
  function Checkout(s: Store, caller: Caller, form: CheckoutForm, orderNumber: string): (r: Reply<nat>)
    ensures r.result.Err? ==> r == Reply(s, Err(InternalError))
    ensures r.result.Ok? <==>
              && form.totalAmount.Number?
              && (form.productId.Some? ==> form.productId.value in s.products)
              && form.name.Some? && form.email.Some?
              && orderNumber !in OrderNumbers(s)
    ensures r.result.Ok? ==>
              var id := r.result.value;
              && id == s.nextOrderId
              && id in r.store.orders
              && r.store == s.(orders := s.orders[id := r.store.orders[id]], nextOrderId := id + 1)
              && var o := r.store.orders[id];
                 && o.orderNumber == orderNumber
                 && (caller.SignedIn? <==> o.userId.Some?)
                 && (caller.SignedIn? ==> o.userId == Some(caller.userId))
                 && o.customerName == form.name.value && o.customerEmail == form.email.value
                 && o.customerPhone == form.phone && o.customerAddress == form.address
                 && o.paymentMethod == form.paymentMethod && o.notes == form.notes
                 && o.totalAmount == form.totalAmount.value
                 && o.status == Pending && o.paymentStatus == PaymentPending
                 && (form.productId.None? ==> o.items == [])
                 && (form.productId.Some? ==>
                       && |o.items| == 1
                       && o.items[0].productId == form.productId.value
                       && o.items[0].quantity == 1
                       && o.items[0].price == s.products[form.productId.value].price)
  {
    if !form.totalAmount.Number? then Reply(s, Err(InternalError))
    else if form.productId.Some? && form.productId.value !in s.products then Reply(s, Err(InternalError))
    else if form.name.None? || form.email.None? || orderNumber in OrderNumbers(s) then Reply(s, Err(InternalError))
    else
      var userId := if caller.SignedIn? then Some(caller.userId) else None;
      var items := match form.productId
                   case None => []
                   case Some(pid) => [OrderItem(pid, 1, s.products[pid].price)];
      var o := Order(orderNumber, userId, form.name.value, form.email.value, form.phone, form.address,
                     form.paymentMethod, PaymentPending, Pending, form.totalAmount.value, form.notes, items);
      var id := s.nextOrderId;
      Reply(s.(orders := s.orders[id := o], nextOrderId := id + 1), Ok(id))
  }

  /** Checkout keeps the store's invariant: the new order's id is fresh, its
      number unique, and its item names a stored product. */
  lemma CheckoutKeepsValid(s: Store, caller: Caller, form: CheckoutForm, orderNumber: string)
    requires Valid(s)
    ensures var r := Checkout(s, caller, form, orderNumber);
            && (r.result.Ok? ==> r.result.value !in s.orders)
            && Valid(r.store)
  {
    var r := Checkout(s, caller, form, orderNumber);
    if r.result.Ok? {
      var id := r.result.value;
      forall other | other in s.orders
        ensures s.orders[other].orderNumber != orderNumber
      {
        assert s.orders[other].orderNumber in OrderNumbers(s);
      }
    }
  }

  /** Status transitions keep the store's invariant. */
  lemma UpdateOrderStatusKeepsValid(s: Store, caller: Caller, id: nat, newStatus: Option<string>)
    requires Valid(s)
    ensures Valid(UpdateOrderStatus(s, caller, id, newStatus).store)
  {
  }

  lemma UpdateOrderPaymentStatusKeepsValid(s: Store, caller: Caller, id: nat, newStatus: Option<string>)
    requires Valid(s)
    ensures Valid(UpdateOrderPaymentStatus(s, caller, id, newStatus).store)
  {
  }

  /** The price on an order's item is a snapshot: editing the product's
      price afterwards leaves it as it was at checkout. */
  lemma ItemPriceSurvivesProductEdit(s: Store, customer: Caller, form: CheckoutForm, orderNumber: string,
                                     admin: Caller, edit: Catalog.ProductForm, uploads: seq<string>,
                                     sanitize: string -> string)
    requires form.productId.Some?
    requires Checkout(s, customer, form, orderNumber).result.Ok?
    ensures var placed := Checkout(s, customer, form, orderNumber);
            var orderId := placed.result.value;
            var edited := Catalog.EditProduct(placed.store, admin, form.productId.value, edit, uploads, sanitize);
            && orderId in edited.store.orders
            && edited.store.orders[orderId].items[0].price == s.products[form.productId.value].price
  {
  }
}

=== FILE: settings.dfy ===
/** The admin site-settings form: one settings row, created on first save
    and overwritten on every later save. */
module Settings {
  import opened Wrappers
  import opened Text
  import opened Storefront

  /** The submitted form; each field is `None` when it is not sent. */
  datatype SettingsForm = SettingsForm(
    location: Option<string>,
    phone: Option<string>,
    whatsapp: Option<string>,
    contactEmail: Option<string>,
    businessHours: Option<string>,
    facebook: Option<string>,
    twitter: Option<string>,
    instagram: Option<string>,
    youtube: Option<string>)

  /** The platforms the form offers a link for. */
  const Platforms: set<string> := {"facebook", "twitter", "instagram", "youtube"}

  /** A social field as stored: missing reads as empty, and the value is
      stripped of surrounding whitespace. */
  function SocialField(field: Option<string>): (link: string)
    ensures Trimmed(link)
    ensures field.None? ==> link == []
    ensures field.Some? && Trimmed(field.value) ==> link == field.value
    ensures link == [] <==> field.None? || AllSpace(field.value)
    ensures field.Some? ==> exists lo :: SliceBetweenSpaces(field.value, lo, link)
  {
    Strip(field.GetOr([]))
  }

  /** The social-links bag: always exactly the four platforms. */
  function SocialLinks(form: SettingsForm): (links: map<string, string>)
    ensures links.Keys == Platforms
    ensures links["facebook"] == SocialField(form.facebook)
    ensures links["twitter"] == SocialField(form.twitter)
    ensures links["instagram"] == SocialField(form.instagram)
    ensures links["youtube"] == SocialField(form.youtube)
  {
    map["facebook" := SocialField(form.facebook),
        "twitter" := SocialField(form.twitter),
        "instagram" := SocialField(form.instagram),
        "youtube" := SocialField(form.youtube)]
  }

  /** The row a save writes: the contact fields exactly as submitted (a
      missing field clears the column) and the cleaned social links. */
  function SettingsRow(form: SettingsForm): SiteSettings {
    SiteSettings(form.location, form.phone, form.whatsapp, form.contactEmail,
                 form.businessHours, SocialLinks(form))
  }

  /** `admin_site_settings` on POST: the first settings row is replaced by
      the form's row, or the row is inserted when the table is empty. Any
      further rows, the products and the orders are untouched. */
  function UpsertSiteSettings(s: Store, caller: Caller, form: SettingsForm): (r: Reply<()>)
    ensures AdminGate(caller).Some? ==> r == Reply(s, Err(AdminGate(caller).value))
    ensures AdminGate(caller).None? ==> r.result.Ok?
    ensures r.result.Ok? ==>
              && CurrentSettings(r.store) == Some(SettingsRow(form))
              && |r.store.settings| == (if s.settings == [] then 1 else |s.settings|)
              && r.store.settings[1..] == (if s.settings == [] then [] else s.settings[1..])
              && r.store.products == s.products && r.store.orders == s.orders
              && r.store.nextProductId == s.nextProductId && r.store.nextOrderId == s.nextOrderId
  {
    match AdminGate(caller)
    case Some(e) => Reply(s, Err(e))
    case None =>
      var row := SettingsRow(form);
      var rows := if s.settings == [] then [row] else [row] + s.settings[1..];
      Reply(s.(settings := rows), Ok(()))
  }

  /** Saving the same form twice leaves the store as saving it once. */
  lemma UpsertIdempotent(s: Store, caller: Caller, form: SettingsForm)
    ensures var once := UpsertSiteSettings(s, caller, form).store;
            UpsertSiteSettings(once, caller, form).store == once
  {
    var once := UpsertSiteSettings(s, caller, form).store;
    if AdminGate(caller).None? {
      var twice := UpsertSiteSettings(once, caller, form).store;
      assert twice.settings == [SettingsRow(form)] + once.settings[1..];
      assert once.settings == [once.settings[0]] + once.settings[1..];
    }
  }

  /** A save keeps the store's invariant and, once an admin has saved, the
      table holds exactly one row. */
  lemma UpsertKeepsValid(s: Store, caller: Caller, form: SettingsForm)
    requires Valid(s)
    ensures var r := UpsertSiteSettings(s, caller, form);
            && Valid(r.store)
            && (r.result.Ok? ==> |r.store.settings| == 1)
  {
  }
}

=== FILE: storefront.dfy ===
/** The storefront's records and the in-memory store standing in for its
    relational tables, together with the caller identity and the errors the
    request handlers report. */
module Storefront {
  import opened Wrappers
  import opened Breeds

  /** Prices and amounts are only ever copied from one record to another,
      never computed with. */
  type Money = real

  /** A puppy listing. `breed` is `None` for "no breed"; `images` is the
      ordered list of image paths; `details` the additional-details bag. */
  datatype Product = Product(
    name: string,
    breed: Option<string>,
    gender: Option<string>,
    age: Option<string>,
    price: Money,
    rating: real,
    description: Option<string>,
    images: seq<string>,
    details: map<string, string>,
    isAvailable: bool)

  /** Fulfilment status of an order. */
  datatype OrderStatus = Pending | Processing | Completed | Cancelled

  /** Payment status of an order. */
  datatype PaymentStatus = PaymentPending | Paid | Refunded

  /** A line item: the unit price is a snapshot taken when the order is
      created, independent of later edits to the product. */
  datatype OrderItem = OrderItem(productId: nat, quantity: nat, price: Money)

  /** An order with the customer's contact details as submitted; `userId`
      is `None` for a guest order. Its items belong to it. */
  datatype Order = Order(
    orderNumber: string,
    userId: Option<nat>,
    customerName: string,
    customerEmail: string,
    customerPhone: Option<string>,
    customerAddress: Option<string>,
    paymentMethod: Option<string>,
    paymentStatus: PaymentStatus,
    status: OrderStatus,
    totalAmount: Money,
    notes: Option<string>,
    items: seq<OrderItem>)

  /** Site-wide contact settings; `socialLinks` maps a platform to a URL. */
  datatype SiteSettings = SiteSettings(
    location: Option<string>,
    phone: Option<string>,
    whatsapp: Option<string>,
    contactEmail: Option<string>,
    businessHours: Option<string>,
    socialLinks: map<string, string>)

  /** The tables: products and orders by id, the site-settings rows in
      table order (read as "first or none"), and the next ids to assign. */
  datatype Store = Store(
    products: map<nat, Product>,
    orders: map<nat, Order>,
    settings: seq<SiteSettings>,
    nextProductId: nat,
    nextOrderId: nat)

  /** Who sends a request: nobody signed in, or a user with its admin flag. */
  datatype Caller = Anonymous | SignedIn(userId: nat, isAdmin: bool)

  /** The outcomes a handler reports instead of success. `InternalError`
      stands for an exception the handler does not catch (a server error);
      nothing is committed then. */
  datatype Error =
    | LoginRequired
    | AccessDenied
    | NotFound
    | InvalidStatus
    | InvalidPaymentStatus
    | NoFilename
    | ImageNotOnProduct
    | InternalError

  /** A handler's effect: the store afterwards and what it answered. */
  datatype Reply<+T> = Reply(store: Store, result: Result<T, Error>)

  /** A numeric form field as `float()` sees it: missing or empty, a number,
      or text that does not parse. */
  datatype NumberField = Blank | Number(value: real) | Malformed

  /** The guard of every admin route: `@login_required`, then the admin flag. */
  function AdminGate(caller: Caller): (denied: Option<Error>)
    ensures denied.None? <==> caller.SignedIn? && caller.isAdmin
    ensures caller.Anonymous? ==> denied == Some(LoginRequired)
    ensures caller.SignedIn? && !caller.isAdmin ==> denied == Some(AccessDenied)
  {
    match caller
    case Anonymous => Some(LoginRequired)
    case SignedIn(_, isAdmin) => if isAdmin then None else Some(AccessDenied)
  }

  /** The store's invariant: ids are below the next id to assign, the
      settings table holds at most one row, order numbers are unique, every
      line item names a stored product, and every stored breed is normal
      or, as `add_product` leaves a whitespace-only breed, empty. */
  predicate Valid(s: Store) {
    && (forall id :: id in s.products ==> id < s.nextProductId)
    && (forall id :: id in s.orders ==> id < s.nextOrderId)
    && |s.settings| <= 1
    && (forall a, b :: a in s.orders && b in s.orders && a != b ==>
          s.orders[a].orderNumber != s.orders[b].orderNumber)
    && (forall id, i :: id in s.orders && 0 <= i < |s.orders[id].items| ==>
          s.orders[id].items[i].productId in s.products)
    && (forall id :: id in s.products && s.products[id].breed.Some? ==>
          s.products[id].breed.value == "" || IsNormalBreed(s.products[id].breed.value))
  }

  /** The settings the pages show: the first row, if any. */
  function CurrentSettings(s: Store): (current: Option<SiteSettings>)
    ensures current.None? <==> s.settings == []
    ensures current.Some? ==> current.value in s.settings
    ensures Valid(s) && current.Some? ==> s.settings == [current.value]
  {
    if s.settings == [] then None else Some(s.settings[0])
  }
}

=== FILE: text.dfy ===
/** The few Python string operations the storefront relies on: `str.strip()`,
    `str.lower()` and `str.title()`. Letters are cased over ASCII only; every
    other character is uncased and left as it is. */
module Text {

  /** The characters Python's `str.isspace()` accepts, which is the set that
      `str.strip()` with no argument removes. */
  predicate IsSpace(c: char) {
    var n := c as int;
    || 0x09 <= n <= 0x0D
    || 0x1C <= n <= 0x20
    || n == 0x85 || n == 0xA0 || n == 0x1680
    || 0x2000 <= n <= 0x200A
    || n == 0x2028 || n == 0x2029 || n == 0x202F || n == 0x205F || n == 0x3000
  }

  predicate AllSpace(s: string) {
    forall k :: 0 <= k < |s| ==> IsSpace(s[k])
  }

  /** `s` has no whitespace at either end (vacuously so when empty). */
  predicate Trimmed(s: string) {
    s == [] || (!IsSpace(s[0]) && !IsSpace(s[|s| - 1]))
  }

  /** Index of the first non-whitespace character of `s` at or after `i`,
      or `|s|` when there is none. */
  function SkipSpaces(s: string, i: nat): (lo: nat)
    requires i <= |s|
    ensures i <= lo <= |s|
    ensures forall k :: i <= k < lo ==> IsSpace(s[k])
    ensures lo < |s| ==> !IsSpace(s[lo])
    decreases |s| - i
  {
    if i < |s| && IsSpace(s[i]) then SkipSpaces(s, i + 1) else i
  }

  /** One past the last non-whitespace character of `s` at or after `lo`,
      or `lo` when there is none. */
  function TrimEnd(s: string, lo: nat, hi: nat): (end: nat)
    requires lo <= hi <= |s|
    ensures lo <= end <= hi
    ensures forall k :: end <= k < hi ==> IsSpace(s[k])
    ensures end > lo ==> !IsSpace(s[end - 1])
    decreases hi
  {
    if lo < hi && IsSpace(s[hi - 1]) then TrimEnd(s, lo, hi - 1) else hi
  }

  /** Python's `s.strip()`: `s` with whitespace removed from both ends. */
  function Strip(s: string): (r: string)
    ensures Trimmed(r)
    ensures r == [] <==> AllSpace(s)
    ensures Trimmed(s) ==> r == s
    ensures exists lo :: SliceBetweenSpaces(s, lo, r)
  {
    var lo := SkipSpaces(s, 0);
    var hi := TrimEnd(s, lo, |s|);
    assert hi > lo ==> s[lo..hi][0] == s[lo] && s[lo..hi][hi - lo - 1] == s[hi - 1];
    assert Trimmed(s) && s != [] ==> lo == 0 && hi == |s|;
    assert SliceBetweenSpaces(s, lo, s[lo..hi]);
    s[lo..hi]
  }

  /** Stripping removes exactly the whitespace around a trimmed text. */
  lemma StripSurrounded(pre: string, t: string, post: string)
    requires AllSpace(pre) && AllSpace(post) && Trimmed(t) && t != []
    ensures Strip(pre + t + post) == t
  {
    var s := pre + t + post;
    var a, b := |pre|, |pre| + |t|;
    forall k | 0 <= k < a ensures IsSpace(s[k]) {
      assert s[k] == pre[k];
    }
    forall k | b <= k < |s| ensures IsSpace(s[k]) {
      assert s[k] == post[k - b];
    }
    assert s[a] == t[0] && s[b - 1] == t[|t| - 1];
    var lo := SkipSpaces(s, 0);
    var hi := TrimEnd(s, lo, |s|);
    assert lo == a;
    assert hi == b;
    assert s[a..b] == t;
  }

  /** `r` is the slice of `s` starting at `lo`, and everything of `s` outside
      that slice is whitespace. */
  predicate SliceBetweenSpaces(s: string, lo: int, r: string) {
    && 0 <= lo <= |s| - |r| && r == s[lo..lo + |r|]
    && (forall k :: 0 <= k < lo ==> IsSpace(s[k]))
    && (forall k :: lo + |r| <= k < |s| ==> IsSpace(s[k]))
  }

  predicate IsUpper(c: char) { 'A' <= c <= 'Z' }

  predicate IsLower(c: char) { 'a' <= c <= 'z' }

  /** Python's `_PyUnicode_IsCased`, restricted to ASCII letters. */
  predicate IsCased(c: char) { IsUpper(c) || IsLower(c) }

  function LowerChar(c: char): (d: char)
    ensures IsCased(d) == IsCased(c) && !IsUpper(d)
    ensures !IsCased(c) ==> d == c
  {
    if IsUpper(c) then (c as int + 32) as char else c
  }

  function UpperChar(c: char): (d: char)
    ensures IsCased(d) == IsCased(c) && !IsLower(d)
    ensures !IsCased(c) ==> d == c
  {
    if IsLower(c) then (c as int - 32) as char else c
  }

  /** Python's `s.lower()`: no upper-case letter is left, every character
      still upper-cases to what the original did, and characters that were
      not upper-case letters are kept. */
  function Lower(s: string): (r: string)
    ensures |r| == |s|
    ensures forall k :: 0 <= k < |s| ==>
              && !IsUpper(r[k])
              && UpperChar(r[k]) == UpperChar(s[k])
              && (!IsUpper(s[k]) ==> r[k] == s[k])
  {
    seq(|s|, k requires 0 <= k < |s| => LowerChar(s[k]))
  }

  /** How `str.title()` maps one character: lower-cased when the character
      before it is cased, title-cased (upper-cased, for ASCII) otherwise. */
  function TitleChar(afterCased: bool, c: char): char {
    if afterCased then LowerChar(c) else UpperChar(c)
  }

  /** Python's `s.title()`: a character is lower-cased exactly when the
      ORIGINAL character before it is cased, so every run of letters starts
      with a capital and continues in lower case. */
  function Title(s: string): (r: string)
    ensures |r| == |s|
    ensures forall k :: 0 <= k < |s| ==> r[k] == TitleChar(k > 0 && IsCased(s[k - 1]), s[k])
  {
    TitleFrom(s, false)
  }

  /** The loop of CPython's `do_title`, carrying `previous_is_cased`. */
  function TitleFrom(s: string, afterCased: bool): (r: string)
    ensures |r| == |s|
    ensures forall k :: 0 <= k < |s| ==>
              r[k] == TitleChar(if k == 0 then afterCased else IsCased(s[k - 1]), s[k])
  {
    if s == [] then [] else [TitleChar(afterCased, s[0])] + TitleFrom(s[1..], IsCased(s[0]))
  }

  /** A word of letters title-cases to its first letter in upper case and
      the rest in lower case. */
  lemma TitleOfWord(s: string)
    requires s != [] && forall k :: 0 <= k < |s| ==> IsCased(s[k])
    ensures Title(s) == [UpperChar(s[0])] + Lower(s[1..])
  {
    var t := Title(s);
    var w := [UpperChar(s[0])] + Lower(s[1..]);
    forall k | 0 <= k < |s|
      ensures t[k] == w[k]
    {
      if k > 0 {
        assert IsCased(s[k - 1]);
        assert s[1..][k - 1] == s[k];
      }
    }
  }

  /** Title-casing changes letters only, so it keeps every character's
      whitespace-ness and cased-ness. */
  lemma TitleKeepsClasses(s: string)
    ensures forall k :: 0 <= k < |s| ==> IsSpace(Title(s)[k]) == IsSpace(s[k])
    ensures forall k :: 0 <= k < |s| ==> IsCased(Title(s)[k]) == IsCased(s[k])
  {
    forall k | 0 <= k < |s|
      ensures IsSpace(Title(s)[k]) == IsSpace(s[k])
      ensures IsCased(Title(s)[k]) == IsCased(s[k])
    {
      var d := Title(s)[k];
      assert d == TitleChar(k > 0 && IsCased(s[k - 1]), s[k]);
      if IsCased(s[k]) {
        assert IsCased(d);
      } else {
        assert d == s[k];
      }
    }
  }

  /** Title-casing an already title-cased string changes nothing. */
  lemma TitleIdempotent(s: string)
    ensures Title(Title(s)) == Title(s)
  {
    var t := Title(s);
    TitleKeepsClasses(s);
    forall k | 0 <= k < |s|
      ensures Title(t)[k] == t[k]
    {
      var after := k > 0 && IsCased(s[k - 1]);
      assert k > 0 ==> IsCased(t[k - 1]) == IsCased(s[k - 1]);
      assert Title(t)[k] == TitleChar(after, t[k]);
    }
  }

  /** Title-casing a string without outer whitespace keeps it so, hence
      stripping after title-casing has nothing left to remove. */
  lemma StripOfTitleOfTrimmed(s: string)
    requires Trimmed(s)
    ensures Strip(Title(s)) == Title(s)
  {
    TitleKeepsClasses(s);
  }
}

=== FILE: uploads.dfy ===
/** Image-upload rules of the admin product forms: the extension allow-list,
    the paths recorded for accepted uploads, and removal of one image from a
    product's ordered image list. */
module Uploads {
  import opened Wrappers
  import opened Text
  import opened Lists

  /** The allow-list of `allowed_file`, compared after lower-casing. */
  const ImageExtensions: set<string> := {"png", "jpg", "jpeg", "gif", "webp", "bmp"}

  /** Python's `name.rsplit('.', 1)[1]`: the text after the last '.', or
      `None` when `name` has no '.' at all (the split then yields one part). */
  function Extension(name: string): (r: Option<string>)
    ensures r.None? <==> '.' !in name
    ensures r.Some? ==> && '.' !in r.value
                        && |r.value| < |name|
                        && name[|name| - |r.value| - 1] == '.'
                        && name[|name| - |r.value|..] == r.value
  {
    if name == [] then None
    else
      var init := name[..|name| - 1];
      var last := name[|name| - 1];
      assert name == init + [last];
      if last == '.' then Some([])
      else match Extension(init)
           case None => None
           case Some(e) =>
             assert init[|init| - |e|..] + [last] == name[|name| - |e| - 1..];
             Some(e + [last])
  }

  /** Splitting a name at a dot followed by dot-free text recovers that text. */
  lemma {:induction false} ExtensionOfSplit(stem: string, ext: string)
    requires '.' !in ext
    ensures Extension(stem + "." + ext) == Some(ext)
  {
    var name := stem + "." + ext;
    assert name[|name| - |ext| - 1] == '.';
    assert name[|name| - |ext|..] == ext;
  }

  /** `allowed_file`: the text after the last '.' of the name, lower-cased,
      must be an allowed image extension; a name without '.' is refused. */
  function AllowedFile(filename: string): (ok: bool)
    ensures ok ==> '.' in filename
  {
    match Extension(filename)
    case None => false
    case Some(e) => Lower(e) in ImageExtensions
  }

  /** Every name containing a '.' is `stem + "." + ext` with a dot-free `ext`,
      and such a name is accepted exactly when `ext`, lower-cased, is one of
      the allowed extensions. */
  lemma AllowedFileOfSplit(stem: string, ext: string)
    requires '.' !in ext
    ensures AllowedFile(stem + "." + ext) <==> Lower(ext) in ImageExtensions
  {
    ExtensionOfSplit(stem, ext);
  }

  /** A name without any dot is always rejected. */
  lemma NoDotRejected(filename: string)
    requires '.' !in filename
    ensures !AllowedFile(filename)
  {
  }

  /** An executable is refused. */
  lemma ExecutableRejected()
    ensures !AllowedFile("malware.exe")
  {
    assert "malware.exe" == "malware" + "." + "exe";
    AllowedFileOfSplit("malware", "exe");
    assert Lower("exe") == "exe";
  }

  /** The extension is compared case-insensitively. */
  lemma UpperCaseExtensionAccepted()
    ensures AllowedFile("puppy.JPG")
  {
    assert "puppy.JPG" == "puppy" + "." + "JPG";
    AllowedFileOfSplit("puppy", "JPG");
    assert Lower("JPG") == "jpg";
  }

  /** The path recorded for an upload saved under `filename`. */
  function UploadPath(filename: string): string {
    "uploads/" + filename
  }

  /** The image paths an upload form adds, in submission order: uploads whose
      name fails `AllowedFile` are skipped silently, the others are saved
      under their sanitised name. An empty upload slot has the empty name,
      which has no dot and is therefore skipped as well. */
  function AcceptedImagePaths(uploads: seq<string>, sanitize: string -> string): (paths: seq<string>)
    ensures |paths| <= |uploads|
    ensures (forall j :: 0 <= j < |uploads| ==> !AllowedFile(uploads[j])) ==> paths == []
    ensures (forall j :: 0 <= j < |uploads| ==> AllowedFile(uploads[j])) ==> |paths| == |uploads|
    ensures forall p :: p in paths ==> p in AcceptedNames(uploads, sanitize)
  {
    if uploads == [] then []
    else
      var rest := AcceptedImagePaths(uploads[1..], sanitize);
      assert AcceptedNames(uploads[1..], sanitize) <= AcceptedNames(uploads, sanitize) by {
        forall p | p in AcceptedNames(uploads[1..], sanitize)
          ensures p in AcceptedNames(uploads, sanitize)
        {
          var j :| 0 <= j < |uploads[1..]| && AllowedFile(uploads[1..][j]) && p == UploadPath(sanitize(uploads[1..][j]));
          assert uploads[1..][j] == uploads[j + 1];
        }
      }
      if AllowedFile(uploads[0]) then [UploadPath(sanitize(uploads[0]))] + rest else rest
  }

  /** The paths of all allowed uploads, as a set. */
  function AcceptedNames(uploads: seq<string>, sanitize: string -> string): set<string> {
    set j | 0 <= j < |uploads| && AllowedFile(uploads[j]) :: UploadPath(sanitize(uploads[j]))
  }

  /** Accepting two batches of uploads is accepting each batch in turn. */
  lemma {:induction false} AcceptedImagePathsAppend(a: seq<string>, b: seq<string>, sanitize: string -> string)
    ensures AcceptedImagePaths(a + b, sanitize) == AcceptedImagePaths(a, sanitize) + AcceptedImagePaths(b, sanitize)
  {
    if a != [] {
      assert (a + b)[1..] == a[1..] + b;
      AcceptedImagePathsAppend(a[1..], b, sanitize);
    } else {
      assert a + b == b;
    }
  }

  /** A single upload is recorded exactly when its name is allowed. */
  lemma AcceptedSingle(name: string, sanitize: string -> string)
    ensures AcceptedImagePaths([name], sanitize) ==
            if AllowedFile(name) then [UploadPath(sanitize(name))] else []
  {
    assert [name][1..] == [];
  }
}

=== FILE: wrappers.dfy ===
/** The option and result types used throughout the storefront model. */
module Wrappers {

  /** A value that may be absent: Python's `None` versus a present value. */
  datatype Option<+T> = None | Some(value: T) {

    /** The present value, or `default` when absent (Python's `x or default`
        for values whose only falsy form is `None`). */
    function GetOr(default: T): T {
      match this
      case Some(v) => v
      case None => default
    }
  }

  /** The outcome of a request handler: a value, or the error it reports. */
  datatype Result<+T, +E> = Ok(value: T) | Err(error: E)
}
